=== FILE: README.md ===
# Investor RFM dashboard — filter and summary core in Dafny

`dashboard.py` is a Streamlit page over a CSV of investors. Its core works like this:

- It offers the distinct values of a few columns as multiselect choices (`unique_non_null`, `get_unique_values`).
- It turns the chosen industries into a search pattern (`regexify`).
- It narrows the table in two stages:
  - by industry and date range;
  - then by a region → country → state cascade, whose option lists depend on the region chosen.
- It derives three tables from the rows that remain:
  - investors per segment, sorted by count;
  - investors per segment and primary investor type;
  - a projection of the RFM columns.

This project models that core on values and proves what each step keeps and drops.

Layout:

- `text.dfy` (module `Text`): Python's `in`, `str.split` and `str.join` on strings.
- `frame.dfy` (module `Frame`): the record type. It holds only the columns the core reads; a missing (NaN) cell is `None`. Boolean masks are the `Cond` datatype. `df[mask]` is `Where`, an order-preserving selection, with its algebra.
- `option_lists.dfy` (module `OptionLists`): `unique_non_null` and `regexify` as functions. `get_unique_values` is a method with the script's loop over rows.
- `filters.dfy` (module `Filters`): the default date range. The industry/date stage is a method that rebinds `df` as the script does, proved equal to a single mask. The location stage is a method mirroring the script's rebinding of `df2` and `df3` and its if/elif chain, proved equal to a case table. It also holds the intended cascade and the two discrepancies between them.
- `summaries.dfy` (module `Summaries`): the group-by counts, sorting by count, the two summary tables and the RFM projection.

Masks are modelled as follows:

- `isin(sel)` is false on a missing cell.
- `str.contains(pattern, na=False)` treats the pattern as `|`-separated literal alternatives: a present cell matches when one alternative occurs in it. So an empty selection gives the empty pattern, which matches every present cell.
- Dates are day numbers, and the date range is inclusive at both ends.

## Model

| member | source | states |
|---|---|---|
| Text.IsSubstringAt | dashboard.py:78 | The substring test used for `str.contains` holds exactly when the pattern occurs at some position of the cell |
| Text.JoinSplit | dashboard.py:25 | Joining the pieces of `s.split(sep)` with `sep` gives back `s` |
| Text.SplitPiecesFree | dashboard.py:25 | No piece of `s.split(sep)` contains the separator: every occurrence was cut |
| Text.SplitJoin | dashboard.py:35-38 | Splitting a `c`-joined non-empty list whose parts do not contain `c` gives back the list |
| Text.JoinLength | dashboard.py:38 | A joined string is as long as its parts plus one separator between each pair of neighbours |
| Frame.Where | dashboard.py:78-81 | `df[mask]` keeps only rows of the table that satisfy the mask, and never more rows than it had |
| Frame.WhereSubseq | dashboard.py:78-81 | `df[mask]` keeps the surviving rows in their original order |
| Frame.WhereCount | dashboard.py:78-81 | `df[mask]` keeps every copy of a row the mask accepts and no copy of a row it rejects |
| Frame.WhereWhere | dashboard.py:78-79 | Selecting with one mask and then with another is selecting once with their conjunction |
| Frame.InColumn | dashboard.py:17 | A value is in a column exactly when some row carries it in that column |
| OptionLists.UniqueNonNull | dashboard.py:16-17 | `dropna().unique()` holds each present value of the column exactly once, no missing value, and no more entries than the column |
| OptionLists.GetUniqueValues | dashboard.py:19-33 | The loop yields each `", "`-separated token of every string cell, and a missing cell as itself, exactly once and nothing else; there are at most as many values as tokens |
| OptionLists.ListOf | dashboard.py:30 | `list(set)` holds each member of the set once and nothing else |
| OptionLists.RegexifyOptionsFails | dashboard.py:35-38 | `regexify` fails exactly when the selection holds the missing-value option; on a selection of strings it gives their `|`-joined pattern |
| OptionLists.Present | dashboard.py:37 | The selected options are all strings exactly when none is missing, and then they are those strings in order |
| OptionLists.RegexifyLength | dashboard.py:35-38 | No selection gives the empty pattern; otherwise the pattern is the tokens plus one `|` between neighbours |
| OptionLists.RegexifyRoundTrip | dashboard.py:35-38 | For tokens free of `|`, splitting the pattern on `|` gives back the selection |
| OptionLists.PatternMeaning | dashboard.py:35-38 | For tokens free of `|`, the pattern matches a cell exactly when the cell is present and contains a selected token; an empty selection matches every present cell |
| Filters.DateRange | dashboard.py:64-65 | The default range is empty only for an empty table; otherwise it bounds every row's date and both ends are dates of some row |
| Filters.IndustryDateStep | dashboard.py:75-81 | Filtering by industry and then by date on submit, or by date only otherwise, equals one selection with the combined mask |
| Filters.IndustryDateKeeps | dashboard.py:75-81 | After the stage, every copy of a row survives iff its date is in `[date1, date2]` and, on submit, its industry matches the pattern; survivors keep their order |
| Filters.IndustryDateMembers | dashboard.py:75-81 | For `|`-free tokens, a row survives iff it is in range and, on submit, has an industry containing a selected token (any industry when nothing is selected) |
| Filters.FullRangeKeepsAll | dashboard.py:63-81 | With the date pickers at their defaults and no search submitted, the whole table survives |
| Filters.LocationStep | dashboard.py:87-124 | Region options come from the date-filtered table; country and state options come from its region-filtered part; each list is duplicate-free; the result is the case table `LocationTable` |
| Filters.ChooseRows | dashboard.py:107-124 | The if/elif chain returns the case table's rows for every combination of empty and non-empty selections; its final `else` is unreachable |
| Filters.OptionsFrom | dashboard.py:87-103 | A value is offered exactly when some row of the (region-narrowed) table carries it |
| Filters.LocationSubseq | dashboard.py:107-124 | Whatever is selected, the cascade only drops rows and keeps order; with nothing selected it returns the table unchanged |
| Filters.PipelineSubseq | dashboard.py:75-124 | Both filter stages together only drop rows of the loaded table and keep the rest in order |
| Filters.IntendedLocationKeeps | dashboard.py:87-103 | The corrected cascade keeps every copy of a row that lies in all non-empty selections, drops every other row, and keeps order |
| Filters.AsWrittenAgreesElsewhere | dashboard.py:107-124 | Except for country alone and all three selected, the chain as written returns what the corrected cascade returns |
| Filters.CountryOnlyDropsAll | dashboard.py:111-112 | A country chosen on its own empties the table, where the corrected cascade keeps that country's rows |
| Filters.CountryOnlyExample | dashboard.py:111-112 | A United States row is dropped when only United States is chosen |
| Filters.AllThreeSelectable | dashboard.py:93 | On a table with a London, United Kingdom row and a Paris, France row, France is among the countries offered once Europe is chosen |
| Filters.AllThreeExample | dashboard.py:113-114 | On that table the choice Europe / France / London keeps the London row, although it is not in France |
| Filters.AllThreeIntendedExample | dashboard.py:87-103 | On that table the corrected cascade keeps no row for the same choice |
| Summaries.GroupCount | dashboard.py:127 | The group-by count has one row per distinct key present (rows with a missing key form no group), each counting that group's rows with an `Investors` value |
| Summaries.GroupCountTotal | dashboard.py:127 | The counts add up to the rows that have a key and an `Investors` value, so never to more than the number of rows |
| Summaries.SortByCount | dashboard.py:128 | `sort_values('Investors')` gives rows in ascending count order, and the same rows |
| Summaries.SortByCountKeeps | dashboard.py:128 | Sorting keeps the total count and the set of keys, and keeps distinct keys distinct |
| Summaries.SegmentSummaryOrder | dashboard.py:127-128 | The segment table is sorted by count, names each segment once, and its counts add up to the counted rows |
| Summaries.SegmentSummaryGroups | dashboard.py:127-128 | The segment table has a row exactly for each segment present, each keyed by one value and holding that segment's count |
| Summaries.InvestorSummaryFacts | dashboard.py:162 | The segment × investor-type table has a row exactly for each pair present, each holding that pair's count; the counts add up to the counted rows |
| Summaries.RfmExtract | dashboard.py:192 | The RFM extract has the same rows in the same order, each carrying exactly the seven listed columns of its source row |

## Left out

- The Streamlit page itself is not modelled: widgets, the form, titles, expanders, charts and downloads. The selections and dates are parameters of the model.
- Reading the CSV, its Latin-1 decoding and the fallback file path are left out. The table is a parameter.
- Filters.FullRangeKeepsAll: dates are day numbers, and `pd.to_datetime` (lines 63-65) is not modelled. A date pandas cannot parse makes it raise, and the script stops. A missing date becomes NaT, which fails both comparisons at lines 79 and 81, so that row is dropped even at the default range. The date pickers (lines 68 and 71) reduce the defaults to calendar days, so a row timed after midnight on the latest date fails `<= date2`. None of these behaviours is modelled.
- The regular-expression engine is left out. A pattern is read as `|`-separated literal alternatives, so regex metacharacters inside industry names are not modelled.
- The pie, bar and treemap charts are left out. The `value` column (line 73) only feeds the pie chart and the sort at line 141 (see the Summaries.RfmExtract line).
- CSV export of the three tables (the segment table, the segment × investor-type table and the RFM extract) is left out.
- Summaries.RfmExtract: keeps the rows in the order the location filter left them. In the script, `filtered_df` is re-sorted by the constant `value` column at line 141 before the RFM extract is built at line 192, and pandas' default sort is not stable, so the row order of `rfm` is not modelled. Its rows and their columns are. The group-by at line 162 also reads the re-sorted frame, but its counts do not depend on row order.
- The RFM scores are not computed; the source only reads them from the file. Numeric RFM columns are integers, so floating point is not modelled.
- Summaries.GroupCount: lists groups in order of first appearance, where pandas lists them in sorted key order. So the row order of the segment table before sorting is not modelled, and neither is the final row order of the segment × investor-type table (`Summaries.InvestorSummary`), which is never sorted.
- Summaries.SortByCount: the contract says nothing about the order of rows with equal counts, and pandas' default sort does not promise one either.
- Filters.IndustryDateStep: takes the industry selection as strings. The multiselect also offers the missing-value option for an empty industry cell; selecting it and submitting makes `"|".join` in `regexify` raise, and the script stops. That failure is modelled by `OptionLists.RegexifyOptions` (outcome `None`), and the filter stage is only modelled for selections without it.
- OptionLists.GetUniqueValues: the result may come in any order, like the Python set it is built from. The `except` path is modelled as what it catches in practice: a missing (non-string) cell.

## Findings

| source | as written | input that shows it | evidently intended | confidence | as-written member | corrected member |
|---|---|---|---|---|---|---|
| dashboard.py:111-112 | With only a country chosen, the branch filters `df` by the (empty) state selection | region = [], country = ["United States"], state = [] on a table with a United States row | Keep the rows of the chosen country | not executed | Filters.CountryOnlyExample | Filters.IntendedLocationKeeps |
| dashboard.py:113-114 | With region, country and state all chosen, the branch tests region and state only, so the country choice is ignored | region = ["Europe"], country = ["France"], state = ["London"] on a table with a London, United Kingdom row and a Paris, France row | Keep only rows that lie in all three selections | not executed | Filters.AllThreeExample | Filters.IntendedLocationKeeps |

=== FILE: filters.dfy ===
/** The two filtering stages of the dashboard script: the industry search
    and date range, then the region → country → state cascade. */
module Filters {
  import opened Text
  import opened Frame
  import opened OptionLists

  // ---------------------------------------------------------------------
  // Default date range (the date pickers' initial values)
  // ---------------------------------------------------------------------

  /** The earliest and latest date of a table, or `None` for an empty one
      (pandas gives NaT there). */
  function DateRange(rows: seq<Record>): (r: Option<(int, int)>)
    ensures r.None? <==> rows == []
    ensures r.Some? ==> forall x :: x in rows ==> r.value.0 <= x.date <= r.value.1
    ensures r.Some? ==> exists x :: x in rows && x.date == r.value.0
    ensures r.Some? ==> exists x :: x in rows && x.date == r.value.1
  {
    if rows == [] then None
    else
      var rest := DateRange(rows[1..]);
      assert forall x :: x in rows <==> x == rows[0] || x in rows[1..];
      match rest
      case None => Some((rows[0].date, rows[0].date))
      case Some((lo, hi)) =>
        Some((if rows[0].date < lo then rows[0].date else lo,
              if rows[0].date > hi then rows[0].date else hi))
  }

  // ---------------------------------------------------------------------
  // Industry search and date range
  // ---------------------------------------------------------------------

  /** The single mask equivalent to the industry/date stage: the date range
      always, the industry search only after the form was submitted. */
  function IndustryDateCond(submitted: bool, selected: seq<string>, date1: int, date2: int): Cond
  {
    if submitted then And(IndustryHit(Regexify(selected)), DateIn(date1, date2))
    else DateIn(date1, date2)
  }

  /** The table after the industry/date stage. */
  function IndustryDate(rows: seq<Record>, submitted: bool, selected: seq<string>,
                        date1: int, date2: int): seq<Record>
  {
    Where(rows, IndustryDateCond(submitted, selected, date1, date2))
  }

  /** The industry/date stage as the script runs it, rebinding `df`: on
      submit, first the rows whose industry matches the joined selection,
      then of those the rows dated within `[date1, date2]`; otherwise only
      the date range. */
  method IndustryDateStep(rows: seq<Record>, submitted: bool, selected: seq<string>,
                          date1: int, date2: int) returns (df: seq<Record>)
    ensures df == IndustryDate(rows, submitted, selected, date1, date2)
  {
    df := rows;
    if submitted {
      df := Where(df, IndustryHit(Regexify(selected)));
      df := Where(df, DateIn(date1, date2));
      WhereWhere(rows, IndustryHit(Regexify(selected)), DateIn(date1, date2));
    } else {
      df := Where(df, DateIn(date1, date2));
    }
  }

  /** After the industry/date stage every copy of a row is kept when its
      date lies in `[date1, date2]` and, on submit, its industry matches the
      pattern; every other row is gone. Survivors keep their order. */
  lemma IndustryDateKeeps(rows: seq<Record>, submitted: bool, selected: seq<string>,
                          date1: int, date2: int, x: Record)
    ensures var out := IndustryDate(rows, submitted, selected, date1, date2);
      && IsSubseq(out, rows)
      && multiset(out)[x] ==
         if date1 <= x.date <= date2 && (submitted ==> SearchMatches(x.industry, Regexify(selected)))
         then multiset(rows)[x] else 0
  {
    var c := IndustryDateCond(submitted, selected, date1, date2);
    WhereSubseq(rows, c);
    WhereCount(rows, c, x);
  }

  /** For selected tokens free of `"|"`: a row survives exactly when it is
      dated within the range and, on submit, has an industry in which some
      selected token occurs. With no token selected every row with an
      industry survives. */
  lemma IndustryDateMembers(rows: seq<Record>, submitted: bool, selected: seq<string>,
                            date1: int, date2: int, x: Record)
    requires forall i :: 0 <= i < |selected| ==> '|' !in selected[i]
    ensures x in IndustryDate(rows, submitted, selected, date1, date2) <==>
      && x in rows
      && date1 <= x.date <= date2
      && (submitted ==>
            && x.industry.Some?
            && (selected == [] ||
                exists i :: 0 <= i < |selected| && IsSubstring(selected[i], x.industry.value)))
  {
    WhereMembers(rows, IndustryDateCond(submitted, selected, date1, date2), x);
    PatternMeaning(selected, x.industry);
  }

  /** With the date pickers left at their defaults (the earliest and latest
      date) and no search submitted, the stage keeps the whole table. */
  lemma FullRangeKeepsAll(rows: seq<Record>, selected: seq<string>)
    requires rows != []
    ensures var (lo, hi) := DateRange(rows).value;
      IndustryDate(rows, false, selected, lo, hi) == rows
  {
    var (lo, hi) := DateRange(rows).value;
    WhereAll(rows, DateIn(lo, hi));
  }

  // ---------------------------------------------------------------------
  // Region → country → state cascade
  // ---------------------------------------------------------------------

  /** Which of the three location multiselects are non-empty. */
  datatype Selection =
    | NothingChosen
    | RegionOnly
    | CountryOnly
    | StateOnly
    | RegionAndState
    | CountryAndState
    | RegionAndCountry
    | AllThree

  function Classify(region: seq<string>, country: seq<string>, state: seq<string>): Selection
  {
    match (region != [], country != [], state != [])
    case (false, false, false) => NothingChosen
    case (true, false, false) => RegionOnly
    case (false, true, false) => CountryOnly
    case (false, false, true) => StateOnly
    case (true, false, true) => RegionAndState
    case (false, true, true) => CountryAndState
    case (true, true, false) => RegionAndCountry
    case (true, true, true) => AllThree
  }

  /** What the cascade returns, case by case: the eight combinations of
      empty and non-empty selections. A country chosen on its own empties
      the table, and with all three chosen the country is not consulted. */
  function LocationTable(df: seq<Record>, region: seq<string>, country: seq<string>,
                         state: seq<string>): seq<Record>
  {
    match Classify(region, country, state)
    case NothingChosen => df
    case RegionOnly => Where(df, RegionIn(region))
    case CountryOnly => []
    case StateOnly => Where(df, StateIn(state))
    case RegionAndState => Where(df, And(RegionIn(region), StateIn(state)))
    case CountryAndState => Where(df, And(CountryIn(country), StateIn(state)))
    case RegionAndCountry => Where(df, And(RegionIn(region), CountryIn(country)))
    case AllThree => Where(df, And(RegionIn(region), StateIn(state)))
  }

  /** The location stage as the script runs it: the region options from the
      date-filtered table `df`; `df2` narrowed by region; the country and the
      state options both drawn from `df2`; `df3` narrowed by country and then
      overwritten from `df2` by state; and the final if/elif chain. */
  method LocationStep(df: seq<Record>, region: seq<string>, country: seq<string>, state: seq<string>)
    returns (regionOptions: seq<string>, countryOptions: seq<string>, stateOptions: seq<string>,
             filtered: seq<Record>)
    ensures NoDup(regionOptions) && NoDup(countryOptions) && NoDup(stateOptions)
    ensures forall v :: v in regionOptions <==> exists x :: x in df && x.region == Some(v)
    ensures forall v :: v in countryOptions <==>
      exists x :: x in df && x.country == Some(v) && (region == [] || InSel(x.region, region))
    ensures forall v :: v in stateOptions <==>
      exists x :: x in df && x.state == Some(v) && (region == [] || InSel(x.region, region))
    ensures filtered == LocationTable(df, region, country, state)
  {
    regionOptions := UniqueNonNull(Column(df, GlobalRegion));
    var df2;
    if region == [] {
      df2 := df;
    } else {
      df2 := Where(df, RegionIn(region));
    }

    countryOptions := UniqueNonNull(Column(df2, CountryTerritory));
    var df3;
    if country == [] {
      df3 := df2;
    } else {
      df3 := Where(df2, CountryIn(country));
    }

    stateOptions := UniqueNonNull(Column(df2, StateProvince));
    if state == [] {
      df3 := df2;
    } else {
      df3 := Where(df2, StateIn(state));
    }

    filtered := ChooseRows(df, df3, region, country, state);
    OptionsFrom(df, region, df2);
  }

  /** The table narrowed by region alone, `df2` of the script. */
  function ByRegion(df: seq<Record>, region: seq<string>): seq<Record>
  {
    if region == [] then df else Where(df, RegionIn(region))
  }

  /** The if/elif chain that picks the final rows, given `df` and `df3` as
      the script leaves them: `df3` is `df2`, narrowed by state when a state
      is chosen, whatever the country selection was. */
  method ChooseRows(df: seq<Record>, df3: seq<Record>, region: seq<string>, country: seq<string>,
                    state: seq<string>) returns (filtered: seq<Record>)
    requires df3 == if state == [] then ByRegion(df, region) else Where(ByRegion(df, region), StateIn(state))
    ensures filtered == LocationTable(df, region, country, state)
  {
    if region == [] && country == [] && state == [] {
      filtered := df;
    } else if country == [] && state == [] {
      filtered := Where(df, RegionIn(region));
    } else if region == [] && state == [] {
      filtered := Where(df, StateIn(state));
      WhereNone(df, StateIn(state));
    } else if region != [] && state != [] {
      filtered := Where(df3, And(RegionIn(region), StateIn(state)));
      RegionStateBranch(df, df3, region, country, state);
    } else if country != [] && state != [] {
      filtered := Where(df3, And(CountryIn(country), StateIn(state)));
      CountryStateBranch(df, df3, region, country, state);
    } else if region != [] && country != [] {
      filtered := Where(df3, And(RegionIn(region), CountryIn(country)));
      RegionCountryBranch(df, df3, region, country, state);
    } else if state != [] {
      filtered := Where(df3, StateIn(state));
      StateBranch(df, df3, region, country, state);
    } else {
      // every combination is caught by one of the branches above
      assert false;
    }
  }

  /** The `region and state` branch, also taken when a country is chosen too. */
  lemma RegionStateBranch(df: seq<Record>, df3: seq<Record>, region: seq<string>, country: seq<string>,
                          state: seq<string>)
    requires region != [] && state != []
    requires df3 == Where(ByRegion(df, region), StateIn(state))
    ensures Where(df3, And(RegionIn(region), StateIn(state))) == LocationTable(df, region, country, state)
  {
    var both := And(RegionIn(region), StateIn(state));
    assert LocationTable(df, region, country, state) == Where(df, both) by {
      if country == [] {
        assert Classify(region, country, state) == RegionAndState;
      } else {
        assert Classify(region, country, state) == AllThree;
      }
    }
    assert df3 == Where(Where(df, RegionIn(region)), StateIn(state));
    Narrowed(df, RegionIn(region), StateIn(state), both);
  }

  /** The `country and state` branch, region empty. */
  lemma CountryStateBranch(df: seq<Record>, df3: seq<Record>, region: seq<string>, country: seq<string>,
                           state: seq<string>)
    requires region == [] && country != [] && state != []
    requires df3 == Where(ByRegion(df, region), StateIn(state))
    ensures Where(df3, And(CountryIn(country), StateIn(state))) == LocationTable(df, region, country, state)
  {
    NarrowedTwice(df, StateIn(state), And(CountryIn(country), StateIn(state)));
    assert Classify(region, country, state) == CountryAndState;
  }

  /** The `region and country` branch, state empty. */
  lemma RegionCountryBranch(df: seq<Record>, df3: seq<Record>, region: seq<string>, country: seq<string>,
                            state: seq<string>)
    requires region != [] && country != [] && state == []
    requires df3 == ByRegion(df, region)
    ensures Where(df3, And(RegionIn(region), CountryIn(country))) == LocationTable(df, region, country, state)
  {
    NarrowedTwice(df, RegionIn(region), And(RegionIn(region), CountryIn(country)));
    assert Classify(region, country, state) == RegionAndCountry;
  }

  /** The `state` branch, region and country empty. */
  lemma StateBranch(df: seq<Record>, df3: seq<Record>, region: seq<string>, country: seq<string>,
                    state: seq<string>)
    requires region == [] && country == [] && state != []
    requires df3 == Where(ByRegion(df, region), StateIn(state))
    ensures Where(df3, StateIn(state)) == LocationTable(df, region, country, state)
  {
    NarrowedTwice(df, StateIn(state), StateIn(state));
    assert Classify(region, country, state) == StateOnly;
  }

  /** Narrowing by `a` and then by `c` gives the rows that satisfy `c`,
      provided `c` implies `a`. */
  lemma NarrowedTwice(df: seq<Record>, a: Cond, c: Cond)
    requires forall x :: Holds(c, x) ==> Holds(a, x)
    ensures Where(Where(df, a), c) == Where(df, c)
  {
    WhereWhere(df, a, c);
    WhereSame(df, And(a, c), c);
  }

  /** Narrowing by `a`, then by `b`, then by `c` gives the rows that
      satisfy `c`, provided `c` implies `a` and `b`. */
  lemma Narrowed(df: seq<Record>, a: Cond, b: Cond, c: Cond)
    requires forall x :: Holds(c, x) ==> Holds(a, x) && Holds(b, x)
    ensures Where(Where(Where(df, a), b), c) == Where(df, c)
  {
    WhereWhere(df, a, b);
    WhereWhere(df, And(a, b), c);
    WhereSame(df, And(And(a, b), c), c);
  }

  /** The option lists of `LocationStep`, stated about the rows they come from. */
  lemma OptionsFrom(df: seq<Record>, region: seq<string>, df2: seq<Record>)
    requires df2 == ByRegion(df, region)
    ensures forall v :: Some(v) in Column(df, GlobalRegion) <==> exists x :: x in df && x.region == Some(v)
    ensures forall v :: Some(v) in Column(df2, CountryTerritory) <==>
      exists x :: x in df && x.country == Some(v) && (region == [] || InSel(x.region, region))
    ensures forall v :: Some(v) in Column(df2, StateProvince) <==>
      exists x :: x in df && x.state == Some(v) && (region == [] || InSel(x.region, region))
  {
    forall v
      ensures Some(v) in Column(df, GlobalRegion) <==> exists x :: x in df && x.region == Some(v)
    {
      InColumn(df, GlobalRegion, Some(v));
    }
    forall x
      ensures x in df2 <==> x in df && (region == [] || InSel(x.region, region))
    {
      if region != [] {
        WhereMembers(df, RegionIn(region), x);
      }
    }
    forall v
      ensures Some(v) in Column(df2, CountryTerritory) <==>
        exists x :: x in df && x.country == Some(v) && (region == [] || InSel(x.region, region))
    {
      InColumn(df2, CountryTerritory, Some(v));
    }
    forall v
      ensures Some(v) in Column(df2, StateProvince) <==>
        exists x :: x in df && x.state == Some(v) && (region == [] || InSel(x.region, region))
    {
      InColumn(df2, StateProvince, Some(v));
    }
  }

  /** Whatever is selected, the cascade only drops rows of `df` and keeps
      the rest in order; with nothing selected it returns `df` itself. */
  lemma LocationSubseq(df: seq<Record>, region: seq<string>, country: seq<string>, state: seq<string>)
    ensures IsSubseq(LocationTable(df, region, country, state), df)
    ensures |LocationTable(df, region, country, state)| <= |df|
    ensures region == [] && country == [] && state == [] ==> LocationTable(df, region, country, state) == df
  {
    match Classify(region, country, state)
    case NothingChosen => IsSubseqRefl(df);
    case RegionOnly => WhereSubseq(df, RegionIn(region));
    case CountryOnly =>
    case StateOnly => WhereSubseq(df, StateIn(state));
    case RegionAndState => WhereSubseq(df, And(RegionIn(region), StateIn(state)));
    case CountryAndState => WhereSubseq(df, And(CountryIn(country), StateIn(state)));
    case RegionAndCountry => WhereSubseq(df, And(RegionIn(region), CountryIn(country)));
    case AllThree => WhereSubseq(df, And(RegionIn(region), StateIn(state)));
  }

  /** Both stages together only drop rows of the loaded table and keep the
      rest in order. */
  lemma PipelineSubseq(rows: seq<Record>, submitted: bool, selected: seq<string>, date1: int, date2: int,
                       region: seq<string>, country: seq<string>, state: seq<string>)
    ensures IsSubseq(LocationTable(IndustryDate(rows, submitted, selected, date1, date2),
                                   region, country, state), rows)
  {
    var df := IndustryDate(rows, submitted, selected, date1, date2);
    WhereSubseq(rows, IndustryDateCond(submitted, selected, date1, date2));
    LocationSubseq(df, region, country, state);
    IsSubseqTrans(LocationTable(df, region, country, state), df, rows);
  }

  // ---------------------------------------------------------------------
  // The cascade as evidently intended
  // ---------------------------------------------------------------------

  /** A row passes the location filter as intended when it lies in every
      selection that is not empty. */
  predicate Admits(region: seq<string>, country: seq<string>, state: seq<string>, x: Record)
  {
    && (region == [] || InSel(x.region, region))
    && (country == [] || InSel(x.country, country))
    && (state == [] || InSel(x.state, state))
  }

  /** The cascade with each stage narrowing the previous one: region, then
      country, then state, each skipped when its selection is empty. */
  function IntendedLocation(df: seq<Record>, region: seq<string>, country: seq<string>,
                            state: seq<string>): seq<Record>
  {
    var df2 := ByRegion(df, region);
    var df3 := if country == [] then df2 else Where(df2, CountryIn(country));
    if state == [] then df3 else Where(df3, StateIn(state))
  }

  /** The intended cascade keeps every copy of each row that lies in all
      non-empty selections, drops every other row, and keeps the order. */
  lemma IntendedLocationKeeps(df: seq<Record>, region: seq<string>, country: seq<string>,
                              state: seq<string>, x: Record)
    ensures var out := IntendedLocation(df, region, country, state);
      && multiset(out)[x] == (if Admits(region, country, state, x) then multiset(df)[x] else 0)
      && IsSubseq(out, df)
  {
    var df2 := if region == [] then df else Where(df, RegionIn(region));
    var df3 := if country == [] then df2 else Where(df2, CountryIn(country));
    var out := if state == [] then df3 else Where(df3, StateIn(state));
    IsSubseqRefl(df);
    if region != [] {
      WhereCount(df, RegionIn(region), x);
      WhereSubseq(df, RegionIn(region));
    }
    if country != [] {
      WhereCount(df2, CountryIn(country), x);
      WhereSubseq(df2, CountryIn(country));
      IsSubseqTrans(df3, df2, df);
    }
    if state != [] {
      WhereCount(df3, StateIn(state), x);
      WhereSubseq(df3, StateIn(state));
      IsSubseqTrans(out, df3, df);
    }
  }

  /** Apart from a country chosen alone and all three chosen together, the
      cascade as written returns what was intended. */
  lemma AsWrittenAgreesElsewhere(df: seq<Record>, region: seq<string>, country: seq<string>,
                                 state: seq<string>)
    requires Classify(region, country, state) !in {CountryOnly, AllThree}
    ensures LocationTable(df, region, country, state) == IntendedLocation(df, region, country, state)
  {
    match Classify(region, country, state)
    case NothingChosen =>
    case RegionOnly =>
    case StateOnly =>
    case RegionAndState =>
      WhereWhere(df, RegionIn(region), StateIn(state));
    case CountryAndState =>
      WhereWhere(df, CountryIn(country), StateIn(state));
    case RegionAndCountry =>
      WhereWhere(df, RegionIn(region), CountryIn(country));
  }

  /** A country chosen on its own empties the table, whatever it holds;
      the intended cascade keeps the rows of that country. */
  lemma CountryOnlyDropsAll(df: seq<Record>, country: seq<string>)
    requires country != []
    ensures LocationTable(df, [], country, []) == []
    ensures IntendedLocation(df, [], country, []) == Where(df, CountryIn(country))
  {
  }

  /** A one-row table whose row is in the United States: choosing only that
      country shows nothing, where the intended cascade shows the row. */
  lemma CountryOnlyExample()
    ensures var usa := Record(Some("Fintech"), 0, Some("Americas"), Some("United States"),
                              Some("California"), Some("Angel"), Some("Acme"), Some("Angel"),
                              None, None, None, None);
      && LocationTable([usa], [], ["United States"], []) == []
      && IntendedLocation([usa], [], ["United States"], []) == [usa]
  {
  }

  /** A London row of a United Kingdom investor. */
  const LondonRow := Record(Some("Fintech"), 0, Some("Europe"), Some("United Kingdom"),
                            Some("London"), Some("Angel"), Some("Acme"), Some("Angel"),
                            None, None, None, None)

  /** A Paris row of a French investor. */
  const ParisRow := Record(Some("Fintech"), 0, Some("Europe"), Some("France"),
                           Some("Île-de-France"), Some("Angel"), Some("Bravo"), Some("Angel"),
                           None, None, None, None)

  /** On a table of the London and the Paris row, France is among the
      countries offered once Europe is chosen. */
  lemma AllThreeSelectable()
    ensures "France" in UniqueNonNull(Column(ByRegion([LondonRow, ParisRow], ["Europe"]), CountryTerritory))
  {
    var df := [LondonRow, ParisRow];
    WhereAll(df, RegionIn(["Europe"]));
    assert Column(df, CountryTerritory)[1] == Some("France");
  }

  /** On that table, choosing region Europe, country France and state
      London keeps the London row, although it is not in France. */
  lemma AllThreeExample()
    ensures LocationTable([LondonRow, ParisRow], ["Europe"], ["France"], ["London"]) == [LondonRow]
  {
    assert "Île-de-France" != "London";
    assert Classify(["Europe"], ["France"], ["London"]) == AllThree;
    assert Where([LondonRow, ParisRow], And(RegionIn(["Europe"]), StateIn(["London"]))) == [LondonRow];
  }

  /** The intended cascade keeps no row of that table for the same choice:
      the only London row is not in France. */
  lemma AllThreeIntendedExample()
    ensures IntendedLocation([LondonRow, ParisRow], ["Europe"], ["France"], ["London"]) == []
  {
    var df := [LondonRow, ParisRow];
    assert "United Kingdom" != "France" && "Île-de-France" != "London";
    WhereAll(df, RegionIn(["Europe"]));
    assert Where(df, CountryIn(["France"])) == [ParisRow];
    assert Where([ParisRow], StateIn(["London"])) == [];
  }
}

=== FILE: frame.dfy ===
/** The investor table as the dashboard sees it: an ordered sequence of
    records, boolean masks over them, and row selection `df[mask]`. */
module Frame {
  import opened Text

  datatype Option<T> = None | Some(value: T)

  /** One row of the investor CSV, restricted to the columns the dashboard
      reads. `None` is a missing (NaN) cell; the date is a day number. */
  datatype Record = Record(
    industry: Option<string>,          // Preferred Industry
    date: int,                         // Last Updated Date
    region: Option<string>,            // HQ Global Region
    country: Option<string>,           // HQ Country/Territory
    state: Option<string>,             // HQ State/Province
    segment: Option<string>,           // Segment
    investors: Option<string>,         // Investors
    investorType: Option<string>,      // Primary Investor Type
    rfmScore: Option<int>,             // RFM Score
    lastInvestmentDelta: Option<int>,  // Last Investment Delta
    totalInvestments: Option<int>,     // Total Investments
    lastInvestmentSize: Option<int>)   // Last Investment Size

  /** The text columns the dashboard builds option lists from. */
  datatype Field = PreferredIndustry | GlobalRegion | CountryTerritory | StateProvince

  function Cell(x: Record, f: Field): Option<string>
  {
    match f
    case PreferredIndustry => x.industry
    case GlobalRegion => x.region
    case CountryTerritory => x.country
    case StateProvince => x.state
  }

  /** `df[field]`: the column, one cell per row, in row order. */
  function Column(rows: seq<Record>, f: Field): (col: seq<Option<string>>)
    ensures |col| == |rows|
    ensures forall i :: 0 <= i < |rows| ==> col[i] == Cell(rows[i], f)
  {
    if rows == [] then [] else [Cell(rows[0], f)] + Column(rows[1..], f)
  }

  /** `cell.isin(sel)`: a missing cell is never in a selection. */
  predicate InSel(cell: Option<string>, sel: seq<string>)
  {
    cell.Some? && cell.value in sel
  }

  /** `s.str.contains(pattern, na=False)` on one cell. The pattern is read
      as a regular expression made only of `|`-separated literal
      alternatives: the cell matches when one of them occurs in it. */
  predicate SearchMatches(cell: Option<string>, pattern: string)
  {
    cell.Some? &&
    var alternatives := Split(pattern, "|");
    exists i :: 0 <= i < |alternatives| && IsSubstring(alternatives[i], cell.value)
  }

  /** A boolean mask over the rows, as the dashboard builds them. */
  datatype Cond =
    | DateIn(lo: int, hi: int)            // (df['Order Date'] >= lo) & (df['Order Date'] <= hi)
    | IndustryHit(pattern: string)        // df['Preferred Industry'].str.contains(pattern, na=False)
    | RegionIn(regions: seq<string>)      // df['HQ Global Region'].isin(regions)
    | CountryIn(countries: seq<string>)   // df['HQ Country/Territory'].isin(countries)
    | StateIn(states: seq<string>)        // df['HQ State/Province'].isin(states)
    | And(left: Cond, right: Cond)        // left & right

  predicate Holds(c: Cond, x: Record)
  {
    match c
    case DateIn(lo, hi) => lo <= x.date <= hi
    case IndustryHit(pattern) => SearchMatches(x.industry, pattern)
    case RegionIn(sel) => InSel(x.region, sel)
    case CountryIn(sel) => InSel(x.country, sel)
    case StateIn(sel) => InSel(x.state, sel)
    case And(a, b) => Holds(a, x) && Holds(b, x)
  }

  /** `df[mask]`: the rows for which the mask holds, in their original order. */
  function Where(rows: seq<Record>, c: Cond): (kept: seq<Record>)
    ensures |kept| <= |rows|
    ensures forall x :: x in kept ==> x in rows && Holds(c, x)
  {
    if rows == [] then []
    else (if Holds(c, rows[0]) then [rows[0]] else []) + Where(rows[1..], c)
  }

  /** `a` is `b` with some rows left out and the rest in the same order. */
  predicate IsSubseq<T(==)>(a: seq<T>, b: seq<T>)
    decreases |b|
  {
    a == [] || (b != [] && ((a[0] == b[0] && IsSubseq(a[1..], b[1..])) || IsSubseq(a, b[1..])))
  }

  lemma {:induction false} IsSubseqRefl<T>(a: seq<T>)
    ensures IsSubseq(a, a)
  {
    if a != [] {
      IsSubseqRefl(a[1..]);
    }
  }

  lemma {:induction false} IsSubseqTrans<T>(a: seq<T>, b: seq<T>, c: seq<T>)
    requires IsSubseq(a, b) && IsSubseq(b, c)
    ensures IsSubseq(a, c)
    decreases |c|
  {
    if a != [] {
      assert b != [] && c != [];
      if b[0] == c[0] && IsSubseq(b[1..], c[1..]) {
        if a[0] == b[0] && IsSubseq(a[1..], b[1..]) {
          IsSubseqTrans(a[1..], b[1..], c[1..]);
        } else {
          IsSubseqTrans(a, b[1..], c[1..]);
        }
      } else {
        IsSubseqTrans(a, b, c[1..]);
      }
    }
  }

  /** Selection keeps the surviving rows in their original order. */
  lemma {:induction false} WhereSubseq(rows: seq<Record>, c: Cond)
    ensures IsSubseq(Where(rows, c), rows)
  {
    if rows != [] {
      WhereSubseq(rows[1..], c);
      var tail := Where(rows[1..], c);
      if Holds(c, rows[0]) {
        assert Where(rows, c) == [rows[0]] + tail;
        assert ([rows[0]] + tail)[1..] == tail;
      } else {
        assert Where(rows, c) == tail;
        if tail != [] {
          assert IsSubseq(tail, rows[1..]);
        }
      }
    }
  }

  /** Selection keeps every copy of a row the mask accepts and no copy of
      a row it rejects. */
  lemma {:induction false} WhereCount(rows: seq<Record>, c: Cond, x: Record)
    ensures multiset(Where(rows, c))[x] == if Holds(c, x) then multiset(rows)[x] else 0
  {
    if rows != [] {
      var tail := Where(rows[1..], c);
      WhereCount(rows[1..], c, x);
      assert multiset(rows) == multiset{rows[0]} + multiset(rows[1..]) by {
        assert rows == [rows[0]] + rows[1..];
      }
      if Holds(c, rows[0]) {
        assert multiset(Where(rows, c)) == multiset{rows[0]} + multiset(tail);
      } else {
        assert multiset(Where(rows, c)) == multiset(tail);
      }
    }
  }

  /** A row survives selection exactly when it was there and the mask
      accepts it. */
  lemma WhereMembers(rows: seq<Record>, c: Cond, x: Record)
    ensures x in Where(rows, c) <==> x in rows && Holds(c, x)
  {
    WhereCount(rows, c, x);
  }

  /** A value is in a column exactly when some row carries it there. */
  lemma {:induction false} InColumn(rows: seq<Record>, f: Field, v: Option<string>)
    ensures v in Column(rows, f) <==> exists x :: x in rows && Cell(x, f) == v
  {
    var col := Column(rows, f);
    if v in col {
      var i :| 0 <= i < |col| && col[i] == v;
      assert rows[i] in rows;
    }
    if exists x :: x in rows && Cell(x, f) == v {
      var x :| x in rows && Cell(x, f) == v;
      var i :| 0 <= i < |rows| && rows[i] == x;
      assert col[i] == v;
    }
  }

  /** Selecting twice is selecting once on the conjunction of the masks. */
  lemma {:induction false} WhereWhere(rows: seq<Record>, a: Cond, b: Cond)
    ensures Where(Where(rows, a), b) == Where(rows, And(a, b))
  {
    if rows != [] {
      WhereWhere(rows[1..], a, b);
      var tail := Where(rows[1..], a);
      if Holds(a, rows[0]) {
        assert Where(rows, a) == [rows[0]] + tail;
        assert ([rows[0]] + tail)[1..] == tail;
        assert Where(Where(rows, a), b)
            == (if Holds(b, rows[0]) then [rows[0]] else []) + Where(tail, b);
      } else {
        assert Where(rows, a) == tail;
      }
    }
  }

  /** Masks that agree on every row select the same rows. */
  lemma {:induction false} WhereSame(rows: seq<Record>, a: Cond, b: Cond)
    requires forall x :: x in rows ==> (Holds(a, x) <==> Holds(b, x))
    ensures Where(rows, a) == Where(rows, b)
  {
    if rows != [] {
      assert rows[0] in rows;
      WhereSame(rows[1..], a, b);
    }
  }

  /** A mask that accepts every row keeps the table as it is. */
  lemma {:induction false} WhereAll(rows: seq<Record>, c: Cond)
    requires forall x :: x in rows ==> Holds(c, x)
    ensures Where(rows, c) == rows
  {
    if rows != [] {
      assert rows[0] in rows;
      WhereAll(rows[1..], c);
    }
  }

  /** A mask that rejects every row leaves an empty table. */
  lemma {:induction false} WhereNone(rows: seq<Record>, c: Cond)
    requires forall x :: x in rows ==> !Holds(c, x)
    ensures Where(rows, c) == []
  {
    if rows != [] {
      assert rows[0] in rows;
      WhereNone(rows[1..], c);
    }
  }
}

=== FILE: option_lists.dfy ===
/** The helpers at the top of the dashboard that build the choices offered
    by its multiselect widgets and turn a selection into a search pattern:
    `unique_non_null`, `get_unique_values` and `regexify`. */
module OptionLists {
  import opened Text
  import opened Frame

  /** No value occurs twice. */
  predicate NoDup<T(==)>(s: seq<T>)
  {
    forall i, j :: 0 <= i < j < |s| ==> s[i] != s[j]
  }

  lemma NoDupCons<T>(a: T, s: seq<T>)
    ensures NoDup([a] + s) <==> a !in s && NoDup(s)
  {
    var t := [a] + s;
    if a !in s && NoDup(s) {
      forall i, j | 0 <= i < j < |t|
        ensures t[i] != t[j]
      {
        if i > 0 {
          assert t[i] == s[i - 1] && t[j] == s[j - 1];
        } else {
          assert t[j] in s;
        }
      }
    }
    if NoDup(t) {
      forall i, j | 0 <= i < j < |s|
        ensures s[i] != s[j]
      {
        assert s[i] == t[i + 1] && s[j] == t[j + 1];
      }
      forall j | 0 <= j < |s|
        ensures s[j] != a
      {
        assert s[j] == t[j + 1] && t[0] == a;
      }
    }
  }

  /** The values of `s` with repeats removed, each kept where it first
      appears (the order of pandas' `unique`). */
  function Distinct<T(==,!new)>(s: seq<T>): (r: seq<T>)
    ensures NoDup(r)
    ensures forall x :: x in r <==> x in s
    ensures |r| <= |s|
  {
    if s == [] then []
    else
      var r := Distinct(s[..|s| - 1]);
      assert forall x :: x in s <==> x in s[..|s| - 1] || x == s[|s| - 1];
      if s[|s| - 1] in r then r else r + [s[|s| - 1]]
  }

  /** `dropna()`: the present values, in order. */
  function NonNull<T(==,!new)>(col: seq<Option<T>>): (r: seq<T>)
    ensures |r| <= |col|
    ensures forall x :: x in r <==> Some(x) in col
  {
    if col == [] then []
    else
      assert forall c :: c in col <==> c == col[0] || c in col[1..];
      (if col[0].Some? then [col[0].value] else []) + NonNull(col[1..])
  }

  /** `unique_non_null(s)`: every present value of the column exactly once,
      and no missing value. */
  function UniqueNonNull(col: seq<Option<string>>): (r: seq<string>)
    ensures NoDup(r)
    ensures forall x :: x in r <==> Some(x) in col
    ensures |r| <= |col|
  {
    Distinct(NonNull(col))
  }

  /** What one cell contributes to `get_unique_values`: a string is split on
      `", "`; anything else (a missing cell) is kept whole. */
  function Tokens(cell: Option<string>): (toks: seq<Option<string>>)
    ensures |toks| >= 1
  {
    match cell
    case None => [None]
    case Some(s) =>
      var parts := Split(s, ", ");
      seq(|parts|, i requires 0 <= i < |parts| => Some(parts[i]))
  }

  /** The token lists of the first rows, one per row, as `list_of_vals`
      holds them after those rows. */
  function TokenLists(rows: seq<Record>, f: Field): (ls: seq<seq<Option<string>>>)
    ensures |ls| == |rows|
    ensures forall i :: 0 <= i < |rows| ==> ls[i] == Tokens(Cell(rows[i], f))
  {
    if rows == [] then []
    else TokenLists(rows[..|rows| - 1], f) + [Tokens(Cell(rows[|rows| - 1], f))]
  }

  /** All lists laid end to end. */
  function Flatten<T>(ls: seq<seq<T>>): seq<T>
  {
    if ls == [] then [] else ls[0] + Flatten(ls[1..])
  }

  /** The number of tokens over all cells of the column. */
  function TokenCount(rows: seq<Record>, f: Field): nat
  {
    |Flatten(TokenLists(rows, f))|
  }

  lemma {:induction false} InFlatten<T>(ls: seq<seq<T>>, x: T)
    ensures x in Flatten(ls) <==> exists l :: l in ls && x in l
  {
    if ls != [] {
      InFlatten(ls[1..], x);
      assert forall l :: l in ls <==> l == ls[0] || l in ls[1..];
    }
  }

  /** A sequence has at most as many distinct values as it has entries. */
  lemma {:induction false} DistinctBound<T>(s: seq<T>)
    ensures |set x | x in s| <= |s|
  {
    if s != [] {
      DistinctBound(s[1..]);
      assert (set x | x in s) == (set x | x in s[1..]) + {s[0]};
    }
  }

  /** `{x for l in ls for x in l}`: every value of every list. */
  function AllOf<T>(ls: seq<seq<T>>): set<T>
  {
    set l, x | l in ls && x in l :: x
  }

  /** The set built from the token lists holds exactly the tokens of the
      column's cells and has no more members than there are tokens. */
  lemma TokenSet(rows: seq<Record>, f: Field)
    ensures var all := AllOf(TokenLists(rows, f));
      && (forall t :: t in all <==> exists i :: 0 <= i < |rows| && t in Tokens(Cell(rows[i], f)))
      && |all| <= TokenCount(rows, f)
  {
    var ls := TokenLists(rows, f);
    var all := AllOf(ls);
    forall t
      ensures t in all <==> t in Flatten(ls)
    {
      InFlatten(ls, t);
    }
    assert all == set x | x in Flatten(ls);
    DistinctBound(Flatten(ls));
    forall t
      ensures t in all <==> exists i :: 0 <= i < |rows| && t in Tokens(Cell(rows[i], f))
    {
      if t in all {
        var l :| l in ls && t in l;
        var i :| 0 <= i < |ls| && ls[i] == l;
        assert t in Tokens(Cell(rows[i], f));
      }
      if exists i :: 0 <= i < |rows| && t in Tokens(Cell(rows[i], f)) {
        var i :| 0 <= i < |rows| && t in Tokens(Cell(rows[i], f));
        assert ls[i] in ls;
      }
    }
  }

  /** `get_unique_values(df, field)`: every `", "`-separated token of every
      string cell, a missing cell as itself, each exactly once and nothing
      else. The order of the result is that of a Python set, so any order
      is allowed here. */
  method GetUniqueValues(rows: seq<Record>, f: Field) returns (vals: seq<Option<string>>)
    ensures NoDup(vals)
    ensures forall t :: t in vals <==> exists i :: 0 <= i < |rows| && t in Tokens(Cell(rows[i], f))
    ensures |vals| <= TokenCount(rows, f)
  {
    var listOfVals: seq<seq<Option<string>>> := [];
    for i := 0 to |rows|
      invariant listOfVals == TokenLists(rows[..i], f)
    {
      assert rows[..i + 1][..i] == rows[..i];
      listOfVals := listOfVals + [Tokens(Cell(rows[i], f))];
    }
    assert rows[..|rows|] == rows;
    var allVals := AllOf(listOfVals);
    vals := ListOf(allVals);
    ListedTokens(rows, f, vals);
  }

  /** A duplicate-free listing of the token set is what `get_unique_values`
      promises. */
  lemma ListedTokens(rows: seq<Record>, f: Field, vals: seq<Option<string>>)
    requires NoDup(vals)
    requires forall t :: t in vals <==> t in AllOf(TokenLists(rows, f))
    requires |vals| == |AllOf(TokenLists(rows, f))|
    ensures forall t :: t in vals <==> exists i :: 0 <= i < |rows| && t in Tokens(Cell(rows[i], f))
    ensures |vals| <= TokenCount(rows, f)
  {
    TokenSet(rows, f);
  }

  /** Python's `list(s)` on a set: its members, each once, in some order. */
  method ListOf<T>(s: set<T>) returns (r: seq<T>)
    ensures NoDup(r)
    ensures forall x :: x in r <==> x in s
    ensures |r| == |s|
  {
    r := [];
    var rest := s;
    while rest != {}
      invariant forall x :: x in s <==> x in r || x in rest
      invariant forall x :: x in r ==> x !in rest
      invariant NoDup(r)
      invariant |r| + |rest| == |s|
      decreases |rest|
    {
      var x :| x in rest;
      r := r + [x];
      rest := rest - {x};
    }
  }

  /** `regexify(searchfor)`: the selected tokens joined by `"|"`. */
  function Regexify(searchfor: seq<string>): (pattern: string)
  {
    Join(searchfor, "|")
  }

  /** The selected options as strings, or `None` when one of them is the
      missing-value option that `get_unique_values` offers for an empty
      cell. */
  function Present(opts: seq<Option<string>>): (strs: Option<seq<string>>)
    ensures strs.None? <==> None in opts
    ensures strs.Some? ==> |strs.value| == |opts|
    ensures strs.Some? ==> forall i :: 0 <= i < |opts| ==> opts[i] == Some(strs.value[i])
  {
    if opts == [] then Some([])
    else
      assert forall o :: o in opts <==> o == opts[0] || o in opts[1..];
      match (opts[0], Present(opts[1..]))
      case (Some(s), Some(rest)) => Some([s] + rest)
      case _ => None
  }

  /** `regexify` on the options as the multiselect hands them over: `"|".join`
      raises on the missing-value option (it is not a string), which is the
      `None` outcome; otherwise the pattern of the selected strings. */
  function RegexifyOptions(searchfor: seq<Option<string>>): (pattern: Option<string>)
  {
    match Present(searchfor)
    case None => None
    case Some(strs) => Some(Regexify(strs))
  }

  /** Selecting the missing-value option makes `regexify` fail, and only
      that; a selection of strings gives their pattern. */
  lemma RegexifyOptionsFails(searchfor: seq<Option<string>>, strs: seq<string>)
    ensures RegexifyOptions(searchfor).None? <==> None in searchfor
    ensures |strs| == |searchfor| && (forall i :: 0 <= i < |strs| ==> searchfor[i] == Some(strs[i])) ==>
      RegexifyOptions(searchfor) == Some(Regexify(strs))
  {
    if |strs| == |searchfor| && (forall i :: 0 <= i < |strs| ==> searchfor[i] == Some(strs[i])) {
      assert None !in searchfor;
      assert Present(searchfor).value == strs;
    }
  }

  /** No selection gives the empty pattern; otherwise the pattern is as long
      as the tokens plus one `"|"` between neighbours. */
  lemma RegexifyLength(searchfor: seq<string>)
    ensures searchfor == [] ==> Regexify(searchfor) == ""
    ensures searchfor != [] ==>
      |Regexify(searchfor)| == TotalLength(searchfor) + |searchfor| - 1
  {
    if searchfor != [] {
      JoinLength(searchfor, "|");
    }
  }

  /** For tokens free of `"|"`, splitting the pattern on `"|"` gives back
      the selection. */
  lemma RegexifyRoundTrip(searchfor: seq<string>)
    requires searchfor != []
    requires forall i :: 0 <= i < |searchfor| ==> '|' !in searchfor[i]
    ensures Split(Regexify(searchfor), "|") == searchfor
  {
    SplitJoin(searchfor, '|');
  }

  /** What the pattern built from a selection matches: with no token selected
      every present cell; otherwise, for tokens free of `"|"`, exactly the
      cells in which some selected token occurs. */
  lemma PatternMeaning(searchfor: seq<string>, cell: Option<string>)
    requires forall i :: 0 <= i < |searchfor| ==> '|' !in searchfor[i]
    ensures SearchMatches(cell, Regexify(searchfor)) <==>
      cell.Some? &&
      (searchfor == [] || exists i :: 0 <= i < |searchfor| && IsSubstring(searchfor[i], cell.value))
  {
    if searchfor == [] {
      assert Regexify(searchfor) == "" && Split("", "|") == [""];
      if cell.Some? {
        assert IsSubstring(Split("", "|")[0], cell.value);
      }
    } else {
      RegexifyRoundTrip(searchfor);
    }
  }
}

=== FILE: summaries.dfy ===
/** The tables the dashboard derives from the filtered rows: investors per
    segment (sorted by count), investors per segment and investor type, and
    the RFM extract. */
module Summaries {
  import opened Frame
  import opened OptionLists

  // ---------------------------------------------------------------------
  // Group-by counts
  // ---------------------------------------------------------------------

  /** The grouping columns of the two summaries. */
  datatype GroupBy = BySegment | BySegmentAndType

  /** One row of a `groupby(...)['Investors'].count()` table: the group's key
      values and how many of its rows have an `Investors` value. */
  datatype GroupRow = GroupRow(key: seq<string>, investors: nat)

  /** A row's group key; `None` when a key column is missing, since pandas
      leaves such rows out of every group. */
  function KeyOf(g: GroupBy, x: Record): Option<seq<string>>
  {
    match g
    case BySegment =>
      if x.segment.Some? then Some([x.segment.value]) else None
    case BySegmentAndType =>
      if x.segment.Some? && x.investorType.Some? then Some([x.segment.value, x.investorType.value])
      else None
  }

  function KeyColumn(rows: seq<Record>, g: GroupBy): (col: seq<Option<seq<string>>>)
    ensures |col| == |rows|
    ensures forall i :: 0 <= i < |rows| ==> col[i] == KeyOf(g, rows[i])
  {
    if rows == [] then [] else [KeyOf(g, rows[0])] + KeyColumn(rows[1..], g)
  }

  /** Whether a row adds to the count of group `k`: it belongs to the group
      and its `Investors` cell is present. */
  predicate CountsFor(g: GroupBy, k: seq<string>, x: Record)
  {
    KeyOf(g, x) == Some(k) && x.investors.Some?
  }

  /** The count pandas reports for group `k`. */
  function InvestorCount(rows: seq<Record>, g: GroupBy, k: seq<string>): nat
  {
    if rows == [] then 0
    else (if CountsFor(g, k, rows[0]) then 1 else 0) + InvestorCount(rows[1..], g, k)
  }

  /** The number of rows with a group key in `keys` and an `Investors` value. */
  function CountedIn(rows: seq<Record>, g: GroupBy, keys: seq<seq<string>>): nat
  {
    if rows == [] then 0
    else
      (if KeyOf(g, rows[0]).Some? && KeyOf(g, rows[0]).value in keys && rows[0].investors.Some? then 1 else 0)
      + CountedIn(rows[1..], g, keys)
  }

  /** The number of rows that belong to some group and have an `Investors`
      value. */
  function Counted(rows: seq<Record>, g: GroupBy): (n: nat)
    ensures n <= |rows|
  {
    if rows == [] then 0
    else (if KeyOf(g, rows[0]).Some? && rows[0].investors.Some? then 1 else 0) + Counted(rows[1..], g)
  }

  function KeysOf(t: seq<GroupRow>): (ks: seq<seq<string>>)
    ensures |ks| == |t|
    ensures forall i :: 0 <= i < |t| ==> ks[i] == t[i].key
  {
    if t == [] then [] else [t[0].key] + KeysOf(t[1..])
  }

  function Total(t: seq<GroupRow>): nat
  {
    if t == [] then 0 else t[0].investors + Total(t[1..])
  }

  /** One table row per key, with that group's count. */
  function CountRows(rows: seq<Record>, g: GroupBy, keys: seq<seq<string>>): (t: seq<GroupRow>)
    ensures KeysOf(t) == keys
    ensures forall i :: 0 <= i < |t| ==> t[i].investors == InvestorCount(rows, g, t[i].key)
  {
    if keys == [] then []
    else [GroupRow(keys[0], InvestorCount(rows, g, keys[0]))] + CountRows(rows, g, keys[1..])
  }

  /** `groupby(by=cols, as_index=False)['Investors'].count()`: one row per
      distinct key present in the table, with the number of that group's
      rows whose `Investors` is present. The groups are listed in order of
      first appearance; pandas lists them in key order. */
  function GroupCount(rows: seq<Record>, g: GroupBy): (t: seq<GroupRow>)
    ensures NoDup(KeysOf(t))
    ensures forall k :: k in KeysOf(t) <==> exists x :: x in rows && KeyOf(g, x) == Some(k)
    ensures forall i :: 0 <= i < |t| ==> t[i].investors == InvestorCount(rows, g, t[i].key)
  {
    var keys := UniqueKeys(rows, g);
    CountRows(rows, g, keys)
  }

  /** The distinct keys present in the table, in order of first appearance. */
  function UniqueKeys(rows: seq<Record>, g: GroupBy): (keys: seq<seq<string>>)
    ensures NoDup(keys)
    ensures forall k :: k in keys <==> exists x :: x in rows && KeyOf(g, x) == Some(k)
  {
    var col := KeyColumn(rows, g);
    assert forall k :: Some(k) in col <==> exists x :: x in rows && KeyOf(g, x) == Some(k) by {
      forall k ensures Some(k) in col <==> exists x :: x in rows && KeyOf(g, x) == Some(k) {
        if Some(k) in col {
          var i :| 0 <= i < |col| && col[i] == Some(k);
          assert rows[i] in rows;
        }
        if exists x :: x in rows && KeyOf(g, x) == Some(k) {
          var x :| x in rows && KeyOf(g, x) == Some(k);
          var i :| 0 <= i < |rows| && rows[i] == x;
          assert col[i] == Some(k);
        }
      }
    }
    Distinct(NonNull(col))
  }

  /** A row outside the groups `keys` adds nothing to their count; one inside
      adds one to its group's count. */
  lemma {:induction false} CountedInCons(rows: seq<Record>, g: GroupBy, k: seq<string>, keys: seq<seq<string>>)
    requires k !in keys
    ensures CountedIn(rows, g, [k] + keys) == InvestorCount(rows, g, k) + CountedIn(rows, g, keys)
  {
    if rows != [] {
      CountedInCons(rows[1..], g, k, keys);
    }
  }

  /** Over distinct keys, the counts add up to the rows counted in those
      groups. */
  lemma {:induction false} TotalOfCountRows(rows: seq<Record>, g: GroupBy, keys: seq<seq<string>>)
    requires NoDup(keys)
    ensures Total(CountRows(rows, g, keys)) == CountedIn(rows, g, keys)
  {
    if keys == [] {
      CountedInNone(rows, g);
    } else {
      assert keys == [keys[0]] + keys[1..];
      assert keys[0] !in keys[1..];
      TotalOfCountRows(rows, g, keys[1..]);
      CountedInCons(rows, g, keys[0], keys[1..]);
    }
  }

  lemma {:induction false} CountedInNone(rows: seq<Record>, g: GroupBy)
    ensures CountedIn(rows, g, []) == 0
  {
    if rows != [] {
      CountedInNone(rows[1..], g);
    }
  }

  /** When `keys` holds every key present, the rows counted in those groups
      are all rows with a key and an `Investors` value. */
  lemma {:induction false} CountedInAll(rows: seq<Record>, g: GroupBy, keys: seq<seq<string>>)
    requires forall x :: x in rows && KeyOf(g, x).Some? ==> KeyOf(g, x).value in keys
    ensures CountedIn(rows, g, keys) == Counted(rows, g)
  {
    if rows != [] {
      assert rows[0] in rows;
      assert forall x :: x in rows[1..] ==> x in rows;
      CountedInAll(rows[1..], g, keys);
    }
  }

  /** The counts of a group-by table add up to the number of rows with a key
      and an `Investors` value, so never to more than the number of rows. */
  lemma GroupCountTotal(rows: seq<Record>, g: GroupBy)
    ensures Total(GroupCount(rows, g)) == Counted(rows, g) <= |rows|
  {
    var keys := UniqueKeys(rows, g);
    TotalOfCountRows(rows, g, keys);
    forall x | x in rows && KeyOf(g, x).Some?
      ensures KeyOf(g, x).value in keys
    {
    }
    CountedInAll(rows, g, keys);
  }

  // ---------------------------------------------------------------------
  // Sorting by count
  // ---------------------------------------------------------------------

  predicate SortedByCount(t: seq<GroupRow>)
  {
    forall i, j :: 0 <= i < j < |t| ==> t[i].investors <= t[j].investors
  }

  /** Place `r` before the first row whose count is not smaller. */
  function Insert(r: GroupRow, t: seq<GroupRow>): seq<GroupRow>
  {
    if t == [] || r.investors <= t[0].investors then [r] + t
    else [t[0]] + Insert(r, t[1..])
  }

  lemma {:induction false} InsertPermutes(r: GroupRow, t: seq<GroupRow>)
    ensures multiset(Insert(r, t)) == multiset{r} + multiset(t)
  {
    if !(t == [] || r.investors <= t[0].investors) {
      InsertPermutes(r, t[1..]);
      assert t == [t[0]] + t[1..];
    }
  }

  lemma {:induction false} InsertTotal(r: GroupRow, t: seq<GroupRow>)
    ensures Total(Insert(r, t)) == r.investors + Total(t)
  {
    if !(t == [] || r.investors <= t[0].investors) {
      InsertTotal(r, t[1..]);
    }
  }

  lemma {:induction false} InsertKeys(r: GroupRow, t: seq<GroupRow>)
    ensures forall k :: k in KeysOf(Insert(r, t)) <==> k == r.key || k in KeysOf(t)
  {
    if !(t == [] || r.investors <= t[0].investors) {
      InsertKeys(r, t[1..]);
    }
  }

  lemma {:induction false} InsertNoDup(r: GroupRow, t: seq<GroupRow>)
    requires NoDup(KeysOf(t)) && r.key !in KeysOf(t)
    ensures NoDup(KeysOf(Insert(r, t)))
  {
    InsertKeys(r, t);
    if t == [] || r.investors <= t[0].investors {
      NoDupCons(r.key, KeysOf(t));
    } else {
      var ks := KeysOf(t);
      assert ks == [t[0].key] + KeysOf(t[1..]);
      NoDupCons(t[0].key, KeysOf(t[1..]));
      InsertNoDup(r, t[1..]);
      InsertKeys(r, t[1..]);
      NoDupCons(t[0].key, KeysOf(Insert(r, t[1..])));
    }
  }

  lemma {:induction false} InsertSorted(r: GroupRow, t: seq<GroupRow>)
    requires SortedByCount(t)
    ensures SortedByCount(Insert(r, t))
  {
    if !(t == [] || r.investors <= t[0].investors) {
      InsertSorted(r, t[1..]);
      InsertPermutes(r, t[1..]);
      var rest := Insert(r, t[1..]);
      forall j | 0 <= j < |rest|
        ensures t[0].investors <= rest[j].investors
      {
        assert rest[j] in multiset(rest);
        if rest[j] != r {
          assert rest[j] in multiset(t[1..]);
        }
      }
    }
  }

  /** `sort_values('Investors')`: ascending by count, a rearrangement of the
      same rows. */
  function SortByCount(t: seq<GroupRow>): (s: seq<GroupRow>)
    ensures SortedByCount(s)
    ensures multiset(s) == multiset(t)
  {
    if t == [] then []
    else
      var rest := SortByCount(t[1..]);
      InsertSorted(t[0], rest);
      InsertPermutes(t[0], rest);
      assert t == [t[0]] + t[1..];
      Insert(t[0], rest)
  }

  /** Sorting keeps the total count and the set of keys, and keys that were
      distinct stay distinct. */
  lemma {:induction false} SortByCountKeeps(t: seq<GroupRow>)
    ensures Total(SortByCount(t)) == Total(t)
    ensures forall k :: k in KeysOf(SortByCount(t)) <==> k in KeysOf(t)
    ensures NoDup(KeysOf(t)) ==> NoDup(KeysOf(SortByCount(t)))
  {
    if t != [] {
      var rest := SortByCount(t[1..]);
      SortByCountKeeps(t[1..]);
      InsertTotal(t[0], rest);
      InsertKeys(t[0], rest);
      if NoDup(KeysOf(t)) {
        NoDupCons(t[0].key, KeysOf(t[1..]));
        InsertNoDup(t[0], rest);
      }
      assert KeysOf(t) == [t[0].key] + KeysOf(t[1..]);
    }
  }

  // ---------------------------------------------------------------------
  // The two summary tables
  // ---------------------------------------------------------------------

  /** `category_df`: investors per segment, sorted ascending by count. */
  function SegmentSummary(rows: seq<Record>): seq<GroupRow>
  {
    SortByCount(GroupCount(rows, BySegment))
  }

  /** The segment summary is in ascending order of count, names each group
      once, and its counts add up to at most the number of rows. */
  lemma SegmentSummaryOrder(rows: seq<Record>)
    ensures var t := SegmentSummary(rows);
      && SortedByCount(t)
      && NoDup(KeysOf(t))
      && Total(t) == Counted(rows, BySegment) <= |rows|
  {
    GroupCountTotal(rows, BySegment);
    SortByCountKeeps(GroupCount(rows, BySegment));
  }

  /** The segment summary has one row for each distinct segment present (a
      missing segment forms no row), each with the number of that segment's
      rows whose `Investors` is present. */
  lemma SegmentSummaryGroups(rows: seq<Record>)
    ensures var t := SegmentSummary(rows);
      && (forall s :: [s] in KeysOf(t) <==> exists x :: x in rows && x.segment == Some(s))
      && (forall i :: 0 <= i < |t| ==> |t[i].key| == 1)
      && (forall i :: 0 <= i < |t| ==> t[i].investors == InvestorCount(rows, BySegment, t[i].key))
  {
    var u := GroupCount(rows, BySegment);
    var t := SortByCount(u);
    SortByCountKeeps(u);
    forall i | 0 <= i < |t|
      ensures |t[i].key| == 1 && t[i].investors == InvestorCount(rows, BySegment, t[i].key)
    {
      RowOfSorted(u, i);
      GroupKeyShape(rows, BySegment, t[i].key);
    }
    forall s
      ensures [s] in KeysOf(t) <==> exists x :: x in rows && x.segment == Some(s)
    {
      if exists x :: x in rows && x.segment == Some(s) {
        var x :| x in rows && x.segment == Some(s);
        assert KeyOf(BySegment, x) == Some([s]);
      }
    }
  }

  /** Each row of the sorted table is a row of the unsorted one. */
  lemma RowOfSorted(u: seq<GroupRow>, i: nat)
    requires i < |SortByCount(u)|
    ensures SortByCount(u)[i] in u
    ensures SortByCount(u)[i].key in KeysOf(u)
  {
    var t := SortByCount(u);
    assert t[i] in multiset(u);
    var j :| 0 <= j < |u| && u[j] == t[i];
    assert KeysOf(u)[j] == t[i].key;
  }

  /** A segment key has one value, a segment and type key two. */
  lemma GroupKeyShape(rows: seq<Record>, g: GroupBy, k: seq<string>)
    requires k in KeysOf(GroupCount(rows, g))
    ensures |k| == if g == BySegment then 1 else 2
  {
    var x :| x in rows && KeyOf(g, x) == Some(k);
  }

  /** `data`: investors per segment and primary investor type. */
  function InvestorSummary(rows: seq<Record>): seq<GroupRow>
  {
    GroupCount(rows, BySegmentAndType)
  }

  /** The investor summary has one row for each distinct pair of segment and
      investor type present, each with the number of that pair's rows whose
      `Investors` is present; the counts add up to at most the number of
      rows. */
  lemma InvestorSummaryFacts(rows: seq<Record>)
    ensures var t := InvestorSummary(rows);
      && NoDup(KeysOf(t))
      && (forall s, p :: [s, p] in KeysOf(t) <==>
            exists x :: x in rows && x.segment == Some(s) && x.investorType == Some(p))
      && (forall i :: 0 <= i < |t| ==> t[i].investors == InvestorCount(rows, BySegmentAndType, t[i].key))
      && Total(t) == Counted(rows, BySegmentAndType) <= |rows|
  {
    var t := InvestorSummary(rows);
    GroupCountTotal(rows, BySegmentAndType);
    forall s, p
      ensures [s, p] in KeysOf(t) <==>
        exists x :: x in rows && x.segment == Some(s) && x.investorType == Some(p)
    {
      if exists x :: x in rows && x.segment == Some(s) && x.investorType == Some(p) {
        var x :| x in rows && x.segment == Some(s) && x.investorType == Some(p);
        assert KeyOf(BySegmentAndType, x) == Some([s, p]);
      }
    }
  }

  // ---------------------------------------------------------------------
  // RFM extract
  // ---------------------------------------------------------------------

  /** A row of the RFM extract: the columns RFM Score, Investors, Primary
      Investor Type, Last Investment Delta, Total Investments, Last
      Investment Size and Preferred Industry, in that order. */
  datatype RfmRow = RfmRow(
    rfmScore: Option<int>,
    investors: Option<string>,
    investorType: Option<string>,
    lastInvestmentDelta: Option<int>,
    totalInvestments: Option<int>,
    lastInvestmentSize: Option<int>,
    industry: Option<string>)

  /** `filtered_df.filter([...])`: the same rows, in the same order, with
      only the seven RFM columns. */
  function RfmExtract(rows: seq<Record>): (t: seq<RfmRow>)
    ensures |t| == |rows|
    ensures forall i :: 0 <= i < |rows| ==>
      && t[i].rfmScore == rows[i].rfmScore
      && t[i].investors == rows[i].investors
      && t[i].investorType == rows[i].investorType
      && t[i].lastInvestmentDelta == rows[i].lastInvestmentDelta
      && t[i].totalInvestments == rows[i].totalInvestments
      && t[i].lastInvestmentSize == rows[i].lastInvestmentSize
      && t[i].industry == rows[i].industry
  {
    if rows == [] then []
    else
      var x := rows[0];
      [RfmRow(x.rfmScore, x.investors, x.investorType, x.lastInvestmentDelta,
              x.totalInvestments, x.lastInvestmentSize, x.industry)]
      + RfmExtract(rows[1..])
  }
}

=== FILE: text.dfy ===
/** The few pieces of Python string behaviour the dashboard relies on:
    `p in s`, `s.split(sep)` and `sep.join(parts)`. */
module Text {

  /** `p` occurs in `s` as a contiguous run of characters (Python's `p in s`). */
  predicate IsSubstring(p: string, s: string)
    decreases |s|
  {
    p <= s || (s != [] && IsSubstring(p, s[1..]))
  }

  /** `p` occurs in `s` starting at index `i`. */
  predicate OccursAt(p: string, s: string, i: int)
  {
    0 <= i <= |s| - |p| && s[i..i + |p|] == p
  }

  /** `IsSubstring` agrees with the positional definition of an occurrence. */
  lemma {:induction false} IsSubstringAt(p: string, s: string)
    ensures IsSubstring(p, s) <==> exists i :: OccursAt(p, s, i)
    decreases |s|
  {
    if p <= s {
      assert OccursAt(p, s, 0);
    } else if s == [] {
    } else {
      IsSubstringAt(p, s[1..]);
      if IsSubstring(p, s[1..]) {
        var i :| OccursAt(p, s[1..], i);
        assert s[i + 1..i + 1 + |p|] == s[1..][i..i + |p|];
        assert OccursAt(p, s, i + 1);
      }
      if exists i :: OccursAt(p, s, i) {
        var i :| OccursAt(p, s, i);
        // i == 0 would make p a prefix of s, the case handled above
        if i != 0 {
          assert s[1..][i - 1..i - 1 + |p|] == s[i..i + |p|];
          assert OccursAt(p, s[1..], i - 1);
        }
      }
    }
  }

  /** Python's `s.split(sep)`: cut `s` at every leftmost, non-overlapping
      occurrence of `sep`. Never empty: `"".split(sep) == [""]`. */
  function Split(s: string, sep: string): (parts: seq<string>)
    requires sep != []
    ensures |parts| >= 1
    decreases |s|
  {
    if sep <= s then [""] + Split(s[|sep|..], sep)
    else if s == [] then [""]
    else
      var rest := Split(s[1..], sep);
      [[s[0]] + rest[0]] + rest[1..]
  }

  /** Python's `sep.join(parts)`. */
  function Join(parts: seq<string>, sep: string): string
  {
    if parts == [] then ""
    else if |parts| == 1 then parts[0]
    else parts[0] + sep + Join(parts[1..], sep)
  }

  /** Total number of characters in `parts`. */
  function TotalLength(parts: seq<string>): nat
  {
    if parts == [] then 0 else |parts[0]| + TotalLength(parts[1..])
  }

  /** The first piece of a split is a prefix of the string. */
  lemma {:induction false} SplitHeadPrefix(s: string, sep: string)
    requires sep != []
    ensures Split(s, sep)[0] <= s
    decreases |s|
  {
    if !(sep <= s) && s != [] {
      SplitHeadPrefix(s[1..], sep);
      assert s == [s[0]] + s[1..];
    }
  }

  /** No piece of a split contains the separator: every occurrence of it
      was cut. With `JoinSplit` this pins the split down for separators
      that cannot overlap themselves, such as `", "` and `"|"`. */
  lemma {:induction false} SplitPiecesFree(s: string, sep: string)
    requires sep != []
    ensures forall i :: 0 <= i < |Split(s, sep)| ==> !IsSubstring(sep, Split(s, sep)[i])
    decreases |s|
  {
    var parts := Split(s, sep);
    if sep <= s {
      SplitPiecesFree(s[|sep|..], sep);
      assert !IsSubstring(sep, "");
      assert forall i :: 1 <= i < |parts| ==> parts[i] == Split(s[|sep|..], sep)[i - 1];
    } else if s != [] {
      var rest := Split(s[1..], sep);
      SplitPiecesFree(s[1..], sep);
      SplitHeadPrefix(s[1..], sep);
      var head := [s[0]] + rest[0];
      assert head <= s by {
        assert s == [s[0]] + s[1..];
      }
      assert !(sep <= head);
      assert head[1..] == rest[0];
      assert !IsSubstring(sep, head);
      assert forall i :: 1 <= i < |parts| ==> parts[i] == rest[i];
    } else {
      assert !IsSubstring(sep, "");
    }
  }

  /** Joining the pieces of a split gives back the original string. */
  lemma {:induction false} JoinSplit(s: string, sep: string)
    requires sep != []
    ensures Join(Split(s, sep), sep) == s
    decreases |s|
  {
    if sep <= s {
      JoinSplit(s[|sep|..], sep);
      JoinSplitAtSep(s, sep);
    } else if s != [] {
      JoinSplit(s[1..], sep);
      JoinSplitAtChar(s, sep);
    }
  }

  /** The step of `JoinSplit` where `s` starts with the separator. */
  lemma JoinSplitAtSep(s: string, sep: string)
    requires sep != [] && sep <= s
    requires Join(Split(s[|sep|..], sep), sep) == s[|sep|..]
    ensures Join(Split(s, sep), sep) == s
  {
    var rest := s[|sep|..];
    var tail := Split(rest, sep);
    assert Split(s, sep) == [""] + tail;
    assert Join([""] + tail, sep) == sep + rest by {
      JoinCons("", tail, sep);
      assert "" + sep == sep;
    }
    assert s == sep + rest by {
      assert s == s[..|sep|] + rest && s[..|sep|] == sep;
    }
  }

  /** The step of `JoinSplit` where `s` starts with an ordinary character. */
  lemma JoinSplitAtChar(s: string, sep: string)
    requires sep != [] && !(sep <= s) && s != []
    requires Join(Split(s[1..], sep), sep) == s[1..]
    ensures Join(Split(s, sep), sep) == s
  {
    var rest := Split(s[1..], sep);
    assert Split(s, sep) == [[s[0]] + rest[0]] + rest[1..];
    assert Join([[s[0]] + rest[0]] + rest[1..], sep) == [s[0]] + s[1..] by {
      JoinHead(s[0], rest, sep);
    }
    assert [s[0]] + s[1..] == s;
  }

  /** Joining a non-empty tail after a head puts one separator between them. */
  lemma JoinCons(head: string, tail: seq<string>, sep: string)
    requires tail != []
    ensures Join([head] + tail, sep) == head + sep + Join(tail, sep)
  {
    assert ([head] + tail)[1..] == tail;
  }

  /** Prefixing a character to the first part prefixes it to the join. */
  lemma JoinHead(c: char, parts: seq<string>, sep: string)
    requires parts != []
    ensures Join([[c] + parts[0]] + parts[1..], sep) == [c] + Join(parts, sep)
  {
    var q := [[c] + parts[0]] + parts[1..];
    assert q[1..] == parts[1..];
  }

  /** A joined string is as long as its parts plus one separator between
      each neighbouring pair. */
  lemma {:induction false} JoinLength(parts: seq<string>, sep: string)
    requires parts != []
    ensures |Join(parts, sep)| == TotalLength(parts) + (|parts| - 1) * |sep|
  {
    if |parts| > 1 {
      JoinLength(parts[1..], sep);
    }
  }

  /** Splitting on a one-character separator that `t` does not contain
      peels `t` off the front. */
  lemma {:induction false} SplitCharPrefix(t: string, c: char, u: string)
    requires c !in t
    ensures Split(t + [c] + u, [c]) == [t] + Split(u, [c])
    decreases |t|
  {
    if t == [] {
      assert [c] <= [c] + u;
      assert ([c] + u)[1..] == u;
    } else {
      assert (t + [c] + u)[0] == t[0] && t[0] in t;
      assert (t + [c] + u)[1..] == t[1..] + [c] + u;
      SplitCharPrefix(t[1..], c, u);
      assert [t[0]] + t[1..] == t;
    }
  }

  /** A string free of the one-character separator splits into itself. */
  lemma {:induction false} SplitCharNone(t: string, c: char)
    requires c !in t
    ensures Split(t, [c]) == [t]
    decreases |t|
  {
    if t != [] {
      assert t[0] in t;
      SplitCharNone(t[1..], c);
      assert [t[0]] + t[1..] == t;
    }
  }

  /** Splitting on a one-character separator undoes joining with it, as long
      as no part contains that character and there is at least one part. */
  lemma {:induction false} SplitJoin(parts: seq<string>, c: char)
    requires parts != []
    requires forall i :: 0 <= i < |parts| ==> c !in parts[i]
    ensures Split(Join(parts, [c]), [c]) == parts
  {
    if |parts| == 1 {
      SplitCharNone(parts[0], c);
    } else {
      SplitJoin(parts[1..], c);
      SplitCharPrefix(parts[0], c, Join(parts[1..], [c]));
      assert parts == [parts[0]] + parts[1..];
    }
  }
}
